=== FILE: README.md ===
# Trending screen of the Odysee client, modelled in Dafny

This project models the loading logic of the Odysee iOS client's trending
screen, plus the mapping from an LBRY claim to the row that shows it in a
list.

One load (`reloadData`) does four things:

- It fetches the content directory.
- It orders the directory's categories by `sortOrder`. A missing `sortOrder`
  counts as 0.
- It builds and sends one `claim_search` query per category. Each query asks
  for streams and reposts (audio or video), released within the last 180
  days, at most one per channel, restricted to the category's channels, and
  limited to the first page of 20.
- It turns each category's outcome into an optional section. A failed search
  gives no section, and so does an empty result. It then collects the
  sections in the order the searches finish.

The screen state is `loading`, `error(message)` or `content(sections)`.
The screen starts in `loading`. Appearing and pull-to-refresh reload without
showing the spinner first. Retry shows `loading` first and then reloads.
The state becomes `error` only when the directory fetch fails.

Modules (one file each):

- `Wrappers` (`wrappers.dfy`): Swift optionals (`Option`) and throwing
  calls (`Result`, carrying the error's description).
- `Lbry` (`lbry.dfy`): the claim and search-request fields the core reads
  and writes. The LBRY module itself is not part of this model. The
  `ClaimType` and `StreamType` enumerations list the LBRY protocol's claim
  and stream types, so "only streams and reposts" is a real restriction.
- `Directory` (`directory.dfy`): a directory category, reduced to the fields the
  screen uses: key, label, optional sort order and channel ids. The Dafny
  field `title` stands for the source's `label`, which is a reserved word
  in Dafny.
- `Decimal` (`decimal.dfy`): decimal formatting as `String(format:)` does
  it. `Format` writes the whole number (the `%lld` form); `FormatInt32` is
  the `%d` form, which keeps only the low 32 bits of an `Int64`. A parser
  states what a formatted number means.
- `CategoryOrder` (`category_order.dfy`): the category sort.
- `TrendingQuery` (`trending_query.dfy`): building the query for one
  category.
- `TaskGroup` (`task_group.dfy`): the fan-in of the task group. Tasks finish
  in a given order: a permutation of the positions in which the tasks were
  added. `compactMap { $0 }` then keeps the non-nil results in that order.
- `TrendingPass` (`trending_pass.dfy`): one section per category outcome,
  and the whole `reloadData` pass.
- `TrendingView` (`trending_view.dfy`): which loads the screen offers in each
  state, and the sequence of states a run of loads shows.
- `VideoRow` (`video_row.dfy`): `VideoRowView.Item`, `ChannelInfo`, and how
  both are derived from a claim.

The network and the clock are inputs, not modelled behaviour:

- The directory fetch is a given `Result`.
- `responses[i]` is the outcome of the search for the i-th query sent, in
  sorted order.
- `order` lists the query positions in the order their tasks finished.
- `now` is the clock reading in whole seconds since the Unix epoch.

What the code does, where a reader might expect otherwise:

- Sections are collected in completion order and are never re-sorted by
  `sortOrder`. `SectionsFollowCompletionOrder` gives an instance where the
  second-ranked section is shown first.
- There is no locale selection: the screen reads one `categories`
  dictionary.
- There is no cancellation and no guard against overlapping passes.

## Model

| member | source | states |
|---|---|---|
| `Decimal.NatDigits` | OdyseeApp/Views/TrendingContentView.swift:99 | The decimal digits of a non-negative number are a non-empty run of decimal digits. The text starts with `0` only for zero, so there is no leading zero. |
| `Decimal.FormatRoundTrip` | OdyseeApp/Views/TrendingContentView.swift:99 | Reading back the full-width decimal text, including a leading `-`, gives exactly the number that was formatted. |
| `Decimal.FormatInjective` | OdyseeApp/Views/TrendingContentView.swift:99 | Two numbers have the same full-width decimal text if and only if they are equal. |
| `Decimal.Int32Wrap` | OdyseeApp/Views/TrendingContentView.swift:97-99 | The value `%d` reads from an `Int64` lies in the 32-bit signed range, differs from the argument by a multiple of 2^32, and equals the argument whenever that fits in 32 bits. |
| `Decimal.FormatInt32` | OdyseeApp/Views/TrendingContentView.swift:99 | The `%d` text of an `Int64` reads back as its 32-bit wrapped value, and is in canonical form: a leading `-` exactly for a negative value and no leading zero. |
| `CategoryOrder.SortCategories` | OdyseeApp/Views/TrendingContentView.swift:93-94 | The ordered categories are a permutation of the directory's categories: same multiset, same length. They are non-decreasing in `sortOrder ?? 0`. |
| `TrendingQuery.BuildRequest` | OdyseeApp/Views/TrendingContentView.swift:96-111 | The query has these fixed fields: claim types stream and repost; stream types audio and video; page 1 of size 20; one claim per channel; order by `release_time`; no excluded tags or channels. Its channel ids are the category's, unchanged. Its single release-time filter is `">"` followed by the decimal form of `now - 15552000`, and reading it back gives that cutoff. |
| `TrendingQuery.ReleaseTimeFilterAsWritten` | OdyseeApp/Views/TrendingContentView.swift:97-99 | The filter the code writes reads back as the 32-bit wrapped start of the window. |
| `TrendingQuery.AsWrittenFilterWraps` | OdyseeApp/Views/TrendingContentView.swift:97-99 | Once the start of the window reaches 2^31 seconds, the cutoff the code writes is earlier than the intended one. At clock reading 2^32 + 180 days it is 0. |
| `TrendingQuery.ReleaseTimeFilter` | OdyseeApp/Views/TrendingContentView.swift:97-99 | The intended filter starts with `>` and reads back as exactly `now - 15552000`. |
| `TrendingQuery.CutoffFollowsClock` | OdyseeApp/Views/TrendingContentView.swift:97-99 | Building a query one day later moves its cutoff exactly 86400 seconds later. |
| `TrendingQuery.RequestDeterminedByChannelsAndClock` | OdyseeApp/Views/TrendingContentView.swift:96-111 | Two built queries are equal if and only if they were built at the same instant for categories with the same channel ids. Key, label and sort order never reach the query. |
| `TaskGroup.CompactCount` | OdyseeApp/Views/TrendingContentView.swift:137 | `compactMap` keeps each value exactly as many times as tasks produced it. It keeps nothing for nil. |
| `TaskGroup.CompactMembership` | OdyseeApp/Views/TrendingContentView.swift:137 | A value is collected if and only if some task produced it. |
| `TaskGroup.CompactAppend` | OdyseeApp/Views/TrendingContentView.swift:137-139 | Compaction keeps relative order: compacting two runs of arrivals one after the other gives the two compactions concatenated. |
| `TaskGroup.PickPermutation` | OdyseeApp/Views/TrendingContentView.swift:137 | Whatever order the tasks finish in, every task's result arrives exactly once. |
| `TaskGroup.Gather` | OdyseeApp/Views/TrendingContentView.swift:135-140 | The collected results number at most as many as the tasks. As a multiset they equal the non-nil task results. |
| `TaskGroup.GatherSplitsAtCompletion` | OdyseeApp/Views/TrendingContentView.swift:135-140 | For every k, everything from the first k tasks to finish comes before everything from the others. |
| `TaskGroup.GatherPairReversed` | OdyseeApp/Views/TrendingContentView.swift:137-139 | Two results whose tasks finish in reverse order are collected in reverse order. |
| `TaskGroup.GatherOrderIndependent` | OdyseeApp/Views/TrendingContentView.swift:135-140 | Two completion orders give the same multiset of collected results. |
| `TaskGroup.CompactDropOne` | OdyseeApp/Views/TrendingContentView.swift:137 | Making one task produce nil removes exactly its own value, if it had one, from what is collected. Nothing else is removed. |
| `TaskGroup.CollectArrivals` | OdyseeApp/Views/TrendingContentView.swift:135-140 | The draining loop appends exactly the non-nil arrivals, in arrival order. |
| `TrendingPass.SectionOf` | OdyseeApp/Views/TrendingContentView.swift:113-133 | A category yields a section if and only if its search succeeded with at least one item. That section has the category's key as id, its label as title, and the items exactly as returned. A failed search yields none. |
| `TrendingPass.Reload` | OdyseeApp/Views/TrendingContentView.swift:90-147 | A pass never ends in `loading`. The state is `error` if and only if the directory fetch failed. In that case the message is the fetch error's description and no query is sent. Otherwise the i-th query sent is the query of the i-th category in sort order, so each category is queried exactly once, in sort order, and at most that many sections are shown. |
| `TrendingPass.OneRequestPerCategory` | OdyseeApp/Views/TrendingContentView.swift:96-111 | Every category's query is sent, and every query sent is the query of some category of the directory. |
| `TrendingPass.SectionsAreNonEmptyResults` | OdyseeApp/Views/TrendingContentView.swift:113-124 | A section is shown if and only if some category's search returned exactly its items, at least one of them, and the section carries that category's key and label. |
| `TrendingPass.SectionsBelongToCategories` | OdyseeApp/Views/TrendingContentView.swift:116-124 | Every section shown is non-empty. Its id and title are the key and label of a category in the directory. |
| `TrendingPass.CompletionOrderOnlyReorders` | OdyseeApp/Views/TrendingContentView.swift:95-140 | Different completion orders send the same queries and show the same multiset of sections. |
| `TrendingPass.FailedSearchDropsOnlyItsSection` | OdyseeApp/Views/TrendingContentView.swift:113-133 | Turning one category's search into a failure or an empty result removes exactly that category's section, if it had one. Every other section stays, and the screen still shows content, not an error. |
| `TrendingPass.AllSearchesFailing` | OdyseeApp/Views/TrendingContentView.swift:113-142 | When every search fails or returns nothing, the screen shows an empty content list, not an error. |
| `TrendingPass.SectionsFollowCompletionOrder` | OdyseeApp/Views/TrendingContentView.swift:93-140 | Take two categories ranked 1 and 2 whose searches finish second-ranked first. The second-ranked section is shown first: the screen is not sorted by `sortOrder`. |
| `TrendingView.Writes` | OdyseeApp/Views/TrendingContentView.swift:85-88 | A Retry writes twice, `loading` first; appearing and refreshing write once. A load's last write is the pass's verdict. For a settled pass, `loading` is written if and only if the load is a Retry, and then it is written first. |
| `TrendingView.LoadingOnlyOnRetry` | OdyseeApp/Views/TrendingContentView.swift:20-88 | Consider any sequential run of loads the screen offers, starting anywhere. After the first state, every `loading` directly follows an `error` and is directly followed by a settled state. |
| `TrendingView.FirstLoadOnAppear` | OdyseeApp/Views/TrendingContentView.swift:19-61 | The screen starts in `loading`, where neither Retry nor pull-to-refresh is offered, so only appearing can start the first load. |
| `TrendingView.ErrorOnlyWhenDirectoryFails` | OdyseeApp/Views/TrendingContentView.swift:20-146 | After any load of a sequential run, whatever started it, the state is an error if and only if the directory fetch failed. |
| `VideoRow.ChannelInfoOf` | OdyseeKit/View/VideoRowView.swift:128-131 | The channel name is the signing channel's name, or `""` when that is absent. The avatar is present if and only if the channel claim has a value, with a thumbnail, with a URL. |
| `VideoRow.ItemOf` | OdyseeKit/View/VideoRowView.swift:117-123 | The title is `value.title`, else `name`, else `"Unnamed Video"`. The thumbnail comes only from `value.thumbnail.url`. The description is `value.description`; thumbnail and description are both absent without a value. The timestamp equals the claim's. A channel is present if and only if the claim has a signing channel. |
| `VideoRow.RowOf` | OdyseeKit/View/VideoRowView.swift:117-141 | A row built from a claim shows the first present of `value.title` and `name` (else `"Unnamed Video"`), the thumbnail `value.thumbnail.url`, the description `value.description` and the claim's timestamp. It has a channel line if and only if the claim is signed; that line's name is the signing channel's name or `""`, and its avatar is the thumbnail the signing channel's own row would show. |
| `VideoRow.TitleFallbackChain` | OdyseeKit/View/VideoRowView.swift:118 | The title is the first present of `value.title` and `name`, with `"Unnamed Video"` as the fallback. So it is always one of those three. |
| `VideoRow.ChannelMirrorsSigningClaim` | OdyseeKit/View/VideoRowView.swift:119-131 | A row's channel avatar is the thumbnail the channel's own claim would show as a row. Its channel name falls back to `""`. |

## Left out

- Task-group fan-out, `URLSession` and the `await` points: the search outcomes and the completion order are inputs.
- `Decimal.Format`: the query the rest of the model builds writes the full 64-bit cutoff (the `%lld` form). The code's `%d` keeps only the low 32 bits, which differs once the cutoff passes 2^31 seconds (mid-2038); `ReleaseTimeFilterAsWritten` models that, and `FormatInjective`, `CutoffFollowsClock`, `RequestDeterminedByChannelsAndClock` and `BuildRequest` hold for the full-width form only: with `%d`, two clock readings 2^32 seconds apart give identical queries.
- `TrendingView.LoadingOnlyOnRetry`: runs are sequential, one load finishing before the next starts. The code can start overlapping passes: `onAppear` and Retry each spawn a `Task`, `.refreshable` awaits a new pass, and nothing guards against a pass still in flight. Interleaved writes of two passes are not modelled.
- `TrendingView.ErrorOnlyWhenDirectoryFails`: holds for sequential runs only; with overlapping passes a later write of an older pass could override a newer one, which the model does not cover.
- Reading the clock: `Date()`, `TimeInterval` and the `Int64` conversion are replaced by an integer `now`. The source reads the clock once per category inside the loop; the model uses one reading for the whole pass.
- `TrendingQuery.BuildRequest`: does not model the `Int64` overflow trap of `now - 15552000`, because integers here are unbounded. The trap is unreachable for any real clock.
- Logging: `store.log` of a failed category and the `print` calls are side effects only.
- The directory fetch itself (`Store.fetchContent`, the session setup, the authorization stub that always returns nil): it is a given `Result`. `Store.fetchContent` declares a locale-keyed dictionary, while the screen reads `content.categories`. The model takes the list of categories in the dictionary's iteration order.
- Ties in `sortOrder`: Swift's `sorted(by:)` does not promise any order among equal ranks. The model's sort keeps input order, but no contract claims it.
- SwiftUI/UIKit rendering: the `body` views, image loading, layout sizes, the relative date formatter, previews, and the UIKit channel cell.
- Timestamps are whole seconds; the conversion to a floating-point `Date` is not modelled.

## Findings

| source | as written | input that shows it | evidently intended | confidence | as-written member | corrected member |
|---|---|---|---|---|---|---|
| OdyseeApp/Views/TrendingContentView.swift:97-99 | `String(format: ">%d", time)` with an `Int64` `time`; `%d` reads a 32-bit `int` | clock reading 4294967296 + 15552000 (the year 2106) gives the filter `>0` instead of `>4294967296`; any reading past mid-2038 gives a wrong cutoff | `%lld`, writing the whole 64-bit cutoff | not executed | `TrendingQuery.AsWrittenFilterWraps` | `TrendingQuery.BuildRequest` |

=== FILE: category_order.dfy ===
/** The order in which the trending screen builds its category queries:
    ascending `sortOrder`, a missing `sortOrder` counting as 0. */
module CategoryOrder {
  import opened Directory

  /** `category.value.sortOrder ?? 0` */
  function Rank(c: Category): (rank: int)
  {
    c.config.sortOrder.GetOr(0)
  }

  predicate Sorted(s: seq<Category>)
  {
    forall i, j :: 0 <= i < j < |s| ==> Rank(s[i]) <= Rank(s[j])
  }

  /** Every entry of `s` ranks at least `k`. */
  predicate RanksAtLeast(s: seq<Category>, k: int)
  {
    forall i :: 0 <= i < |s| ==> k <= Rank(s[i])
  }

  /** The tail of a sorted list is sorted and ranks at least its head. */
  lemma SortedTail(s: seq<Category>)
    requires Sorted(s) && |s| > 0
    ensures Sorted(s[1..]) && RanksAtLeast(s[1..], Rank(s[0]))
  {
  }

  lemma ConsSorted(h: Category, t: seq<Category>)
    requires Sorted(t) && RanksAtLeast(t, Rank(h))
    ensures Sorted([h] + t)
  {
  }

  lemma RanksAtLeastOfMultiset(t: seq<Category>, s: seq<Category>, c: Category, k: int)
    requires multiset(t) == multiset(s) + multiset{c}
    requires RanksAtLeast(s, k) && k <= Rank(c)
    ensures RanksAtLeast(t, k)
  {
    forall i | 0 <= i < |t| ensures k <= Rank(t[i]) {
      assert t[i] in multiset(t);
      if t[i] != c {
        assert t[i] in multiset(s);
      }
    }
  }

  /** Places `c` before the first entry of `s` that does not rank below it. */
  function Insert(c: Category, s: seq<Category>): (r: seq<Category>)
    requires Sorted(s)
    ensures Sorted(r)
    ensures multiset(r) == multiset(s) + multiset{c}
  {
    if |s| == 0 || Rank(c) <= Rank(s[0]) then
      [c] + s
    else
      SortedTail(s);
      var tail := Insert(c, s[1..]);
      assert s == [s[0]] + s[1..];
      RanksAtLeastOfMultiset(tail, s[1..], c, Rank(s[0]));
      ConsSorted(s[0], tail);
      [s[0]] + tail
  }

  /** `categories.sorted(by: { $0.value.sortOrder ?? 0 < $1.value.sortOrder ?? 0 })` */
  function SortCategories(categories: seq<Category>): (r: seq<Category>)
    ensures Sorted(r)
    ensures multiset(r) == multiset(categories)
    ensures |r| == |categories|
  {
    if |categories| == 0 then []
    else
      assert categories == [categories[0]] + categories[1..];
      Insert(categories[0], SortCategories(categories[1..]))
  }

  /** Two categories already in rank order stay in that order. */
  lemma SortPair(a: Category, b: Category)
    requires Rank(a) <= Rank(b)
    ensures SortCategories([a, b]) == [a, b]
  {
    assert [a, b][1..] == [b];
    assert SortCategories([b]) == [b];
  }
}

=== FILE: decimal.dfy ===
/** Integers written in base ten by `String(format:)`. `Format` is the
    full-width conversion (`%lld` for a 64-bit argument): the number with a
    leading `-` when negative. `FormatInt32` is `%d`, which reads only a
    32-bit `int`. `Parse` is the inverse of `Format`, used to state what a
    formatted number means. */
module Decimal {
  import opened Wrappers

  predicate IsDigit(c: char)
  {
    '0' <= c <= '9'
  }

  predicate AllDigits(s: string)
  {
    forall i :: 0 <= i < |s| ==> IsDigit(s[i])
  }

  function DigitChar(d: nat): (c: char)
    requires d < 10
    ensures IsDigit(c)
  {
    ('0' as int + d) as char
  }

  function DigitValue(c: char): (d: nat)
    requires IsDigit(c)
    ensures d < 10
  {
    c as int - '0' as int
  }

  /** The digits of `n`, most significant first, with no leading zero. */
  function NatDigits(n: nat): (s: string)
    ensures |s| > 0 && AllDigits(s)
    ensures s[0] == '0' <==> n == 0
    decreases n
  {
    if n < 10 then [DigitChar(n)] else NatDigits(n / 10) + [DigitChar(n % 10)]
  }

  /** `String(format: "%lld", n)` */
  function Format(n: int): (s: string)
    ensures |s| > 0
    ensures s[0] == '-' <==> n < 0
    ensures s[0] == '0' <==> n == 0
    ensures n < 0 ==> |s| > 1 && IsDigit(s[1]) && s[1] != '0'
  {
    if n < 0 then "-" + NatDigits(-n) else NatDigits(n)
  }

  /** The value of a string of decimal digits (0 for the empty string). */
  function ParseDigits(s: string): (n: nat)
    requires AllDigits(s)
  {
    if |s| == 0 then 0 else ParseDigits(s[..|s| - 1]) * 10 + DigitValue(s[|s| - 1])
  }

  /** Reads an optionally negative decimal integer; anything else is `None`. */
  function Parse(s: string): (r: Option<int>)
    ensures r.Some? ==> |s| > 0
  {
    if |s| > 1 && s[0] == '-' && AllDigits(s[1..]) then Some(0 - ParseDigits(s[1..]) as int)
    else if |s| > 0 && AllDigits(s) then Some(ParseDigits(s))
    else None
  }

  lemma {:induction false} NatDigitsRoundTrip(n: nat)
    ensures ParseDigits(NatDigits(n)) == n
    decreases n
  {
    if n >= 10 {
      var prefix := NatDigits(n / 10);
      var s := prefix + [DigitChar(n % 10)];
      assert s[..|s| - 1] == prefix;
      NatDigitsRoundTrip(n / 10);
    }
  }

  /** Reading back what `%lld` wrote gives the number that was written. */
  lemma FormatRoundTrip(n: int)
    ensures Parse(Format(n)) == Some(n)
  {
    if n < 0 {
      var s := Format(n);
      assert s[1..] == NatDigits(-n);
      NatDigitsRoundTrip(-n);
    } else {
      NatDigitsRoundTrip(n);
    }
  }

  /** Distinct numbers are written differently. */
  lemma FormatInjective(a: int, b: int)
    ensures Format(a) == Format(b) <==> a == b
  {
    if Format(a) == Format(b) {
      FormatRoundTrip(a);
      FormatRoundTrip(b);
    }
  }

  const Int32Modulus: int := 0x1_0000_0000

  /** The 32-bit two's-complement value that `%d` reads when handed an
      `Int64`: the low 32 bits of `n`. */
  function Int32Wrap(n: int): (w: int)
    ensures -0x8000_0000 <= w < 0x8000_0000
    ensures (n - w) % Int32Modulus == 0
    ensures -0x8000_0000 <= n < 0x8000_0000 ==> w == n
  {
    (n + 0x8000_0000) % Int32Modulus - 0x8000_0000
  }

  /** `String(format: "%d", n)` for an `Int64` argument `n`. */
  function FormatInt32(n: int): (s: string)
    ensures Parse(s) == Some(Int32Wrap(n))
    ensures s[0] == '-' <==> Int32Wrap(n) < 0
    ensures s[0] == '0' <==> Int32Wrap(n) == 0
    ensures Int32Wrap(n) < 0 ==> |s| > 1 && IsDigit(s[1]) && s[1] != '0'
  {
    FormatRoundTrip(Int32Wrap(n));
    Format(Int32Wrap(n))
  }
}

=== FILE: directory.dfy ===
/** The content directory's categories, as the trending screen reads them:
    each entry of the `categories` dictionary is a key and its
    configuration. The `Content` type itself is not part of this model;
    only the fields the screen uses are declared. */
module Directory {
  import opened Wrappers

  /** `title` is the source's `label` (a reserved word in Dafny). */
  datatype CategoryConfig = CategoryConfig(
    title: string,
    sortOrder: Option<int>,
    channelIds: Option<seq<string>>)

  /** One dictionary entry: `category.key` and `category.value`. */
  datatype Category = Category(key: string, config: CategoryConfig)
}

=== FILE: lbry.dfy ===
/** The parts of the LBRY protocol types that the trending screen and the
    video row read. The LBRY module itself is not part of this model; only
    the fields the core touches are declared here. */
module Lbry {
  import opened Wrappers

  type Url = string

  /** `Claim.Value.Thumbnail`: a thumbnail whose URL may be missing. */
  datatype Thumbnail = Thumbnail(url: Option<Url>)

  /** `Claim.Value`: the publisher-supplied metadata of a claim. */
  datatype ClaimValue = ClaimValue(
    title: Option<string>,
    thumbnail: Option<Thumbnail>,
    description: Option<string>)

  /** A published content record. `timestamp` is in whole seconds since the
      Unix epoch; `signingChannel` is itself a claim (the channel's). */
  datatype Claim = Claim(
    claimId: string,
    name: Option<string>,
    value: Option<ClaimValue>,
    timestamp: Option<int>,
    signingChannel: Option<Claim>)

  /** `claim.value?.title` */
  function ValueTitle(c: Claim): (title: Option<string>)
  {
    if c.value.Some? then c.value.value.title else None
  }

  /** `claim.value?.thumbnail?.url` */
  function ThumbnailUrl(c: Claim): (url: Option<Url>)
  {
    if c.value.Some? && c.value.value.thumbnail.Some? then c.value.value.thumbnail.value.url else None
  }

  /** `claim.value?.description` */
  function ValueDescription(c: Claim): (description: Option<string>)
  {
    if c.value.Some? then c.value.value.description else None
  }

  datatype ClaimType = Stream | Repost | Channel | Collection

  datatype StreamType = Audio | Video | Image | Document | Binary | Model

  /** The fields of a `claim_search` query that the trending screen sets. */
  datatype ClaimSearchRequest = ClaimSearchRequest(
    claimType: seq<ClaimType>,
    streamTypes: seq<StreamType>,
    page: int,
    pageSize: int,
    releaseTime: seq<string>,
    limitClaimsPerChannel: int,
    notTags: Option<seq<string>>,
    channelIds: Option<seq<string>>,
    notChannelIds: Option<seq<string>>,
    orderBy: seq<string>)
}

=== FILE: task_group.dfy ===
/** The fan-in half of the trending screen's task group: child tasks
    finish in some order (a permutation of the order they were added in),
    and `compactMap { $0 }` keeps the non-nil results in that order. */
module TaskGroup {
  import opened Wrappers

  /** The positions 0, 1, ..., n-1 in which n tasks were added. */
  function Indices(n: nat): (r: seq<nat>)
    ensures |r| == n
    ensures forall k :: 0 <= k < n ==> r[k] == k
  {
    if n == 0 then [] else Indices(n - 1) + [n - 1]
  }

  /** Every entry of `order` names one of n task positions. */
  predicate InBounds(order: seq<nat>, n: nat)
  {
    forall k :: 0 <= k < |order| ==> order[k] < n
  }

  /** `order` lists every one of n task positions exactly once. */
  predicate IsPermutation(order: seq<nat>, n: nat)
  {
    && |order| == n
    && InBounds(order, n)
    && multiset(order) == multiset(Indices(n))
  }

  /** The results of the tasks listed in `order`, in that order. */
  function Pick<T>(results: seq<T>, order: seq<nat>): (r: seq<T>)
    requires InBounds(order, |results|)
    ensures |r| == |order|
    ensures forall k :: 0 <= k < |order| ==> r[k] == results[order[k]]
  {
    seq(|order|, k requires 0 <= k < |order| => results[order[k]])
  }

  /** `compactMap { $0 }`: the present values, in sequence order. */
  function Compact<T(!new)>(xs: seq<Option<T>>): (r: seq<T>)
    ensures |r| <= |xs|
  {
    if |xs| == 0 then []
    else Compact(xs[..|xs| - 1]) + (if xs[|xs| - 1].Some? then [xs[|xs| - 1].value] else [])
  }

  /** Each value is kept as often as tasks produced it. */
  lemma {:induction false} CompactCount<T(!new)>(xs: seq<Option<T>>, x: T)
    ensures multiset(Compact(xs))[x] == multiset(xs)[Some(x)]
    decreases |xs|
  {
    if |xs| > 0 {
      var init := xs[..|xs| - 1];
      assert xs == init + [xs[|xs| - 1]];
      CompactCount(init, x);
    }
  }

  /** Rearranging the task results rearranges what is kept. */
  lemma CompactRearranged<T(!new)>(a: seq<Option<T>>, b: seq<Option<T>>)
    requires multiset(a) == multiset(b)
    ensures multiset(Compact(a)) == multiset(Compact(b))
  {
    forall x: T ensures multiset(Compact(a))[x] == multiset(Compact(b))[x] {
      CompactCount(a, x);
      CompactCount(b, x);
    }
  }

  /** Compaction keeps relative order: it distributes over concatenation. */
  lemma {:induction false} CompactAppend<T(!new)>(a: seq<Option<T>>, b: seq<Option<T>>)
    ensures Compact(a + b) == Compact(a) + Compact(b)
    decreases |b|
  {
    if |b| > 0 {
      var b' := b[..|b| - 1];
      assert (a + b)[..|a + b| - 1] == a + b';
      CompactAppend(a, b');
    } else {
      assert a + b == a;
    }
  }

  /** Compacting a single result keeps it exactly when it is present. */
  lemma CompactSingle<T(!new)>(x: Option<T>)
    ensures Compact([x]) == if x.Some? then [x.value] else []
  {
    assert [x][..0] == [];
  }

  /** A value is kept iff some task produced it. */
  lemma CompactMembership<T(!new)>(xs: seq<Option<T>>, x: T)
    ensures x in Compact(xs) <==> Some(x) in xs
  {
    CompactCount(xs, x);
    assert x in multiset(Compact(xs)) <==> Some(x) in multiset(xs);
  }

  lemma PickAppend<T>(results: seq<T>, p: seq<nat>, q: seq<nat>)
    requires InBounds(p, |results|) && InBounds(q, |results|)
    ensures InBounds(p + q, |results|)
    ensures Pick(results, p + q) == Pick(results, p) + Pick(results, q)
  {
  }

  lemma RemoveAt(q: seq<nat>, i: nat)
    requires i < |q|
    ensures multiset(q[..i] + q[i + 1..]) == multiset(q) - multiset{q[i]}
  {
    assert q == q[..i] + [q[i]] + q[i + 1..];
  }

  lemma PickCons<T>(results: seq<T>, a: nat, rest: seq<nat>)
    requires a < |results| && InBounds(rest, |results|)
    ensures InBounds([a] + rest, |results|)
    ensures Pick(results, [a] + rest) == [results[a]] + Pick(results, rest)
  {
    assert ([a] + rest)[1..] == rest;
  }

  /** Taking out the i-th index takes out exactly the i-th picked result. */
  lemma PickRemoveAt<T>(results: seq<T>, q: seq<nat>, i: nat)
    requires InBounds(q, |results|) && i < |q|
    ensures InBounds(q[..i] + q[i + 1..], |results|)
    ensures multiset(Pick(results, q)) == multiset(Pick(results, q[..i] + q[i + 1..])) + multiset{results[q[i]]}
  {
    var left, right := q[..i], q[i + 1..];
    var x := results[q[i]];
    assert InBounds(left, |results|) && InBounds(right, |results|);
    assert Pick(results, q) == Pick(results, left) + ([x] + Pick(results, right)) by {
      assert q == left + ([q[i]] + right);
      PickCons(results, q[i], right);
      PickAppend(results, left, [q[i]] + right);
    }
    assert Pick(results, left + right) == Pick(results, left) + Pick(results, right) by {
      PickAppend(results, left, right);
    }
    calc {
      multiset(Pick(results, q));
      multiset(Pick(results, left) + ([x] + Pick(results, right)));
      multiset(Pick(results, left)) + multiset{x} + multiset(Pick(results, right));
      multiset(Pick(results, left) + Pick(results, right)) + multiset{x};
    }
  }

  /** Where an index list holds a given position. */
  lemma PositionOf(q: seq<nat>, a: nat) returns (i: nat)
    requires a in multiset(q)
    ensures i < |q| && q[i] == a
  {
    assert a in q;
    i :| 0 <= i < |q| && q[i] == a;
  }

  /** Matching the head of `p` with an equal entry of `q` leaves two
      rearrangements of each other. */
  lemma RemoveMatched(p: seq<nat>, q: seq<nat>, i: nat)
    requires |p| > 0 && i < |q| && q[i] == p[0]
    requires multiset(p) == multiset(q)
    ensures multiset(p[1..]) == multiset(q[..i] + q[i + 1..])
  {
    RemoveAt(q, i);
    assert p == [p[0]] + p[1..];
  }

  /** Picking by two index lists that are rearrangements of each other
      gives rearrangements of each other. */
  lemma {:induction false} PickRearranged<T>(results: seq<T>, p: seq<nat>, q: seq<nat>)
    requires InBounds(p, |results|) && InBounds(q, |results|)
    requires multiset(p) == multiset(q)
    ensures multiset(Pick(results, p)) == multiset(Pick(results, q))
    decreases |p|
  {
    if |p| > 0 {
      var a, tail := p[0], p[1..];
      var i := PositionOf(q, a);
      var rest := q[..i] + q[i + 1..];
      RemoveMatched(p, q, i);
      PickRemoveAt(results, q, i);
      assert InBounds(tail, |results|);
      PickRearranged(results, tail, rest);
      assert p == [a] + tail;
      PickCons(results, a, tail);
    }
  }

  /** Whatever order the tasks finish in, the same results arrive. */
  lemma PickPermutation<T>(results: seq<T>, order: seq<nat>)
    requires IsPermutation(order, |results|)
    ensures multiset(Pick(results, order)) == multiset(results)
  {
    var ids := Indices(|results|);
    PickRearranged(results, order, ids);
    assert Pick(results, ids) == results;
  }

  /** The non-nil results in completion order (the task group's fan-in). */
  function Gather<T(!new)>(results: seq<Option<T>>, order: seq<nat>): (r: seq<T>)
    requires IsPermutation(order, |results|)
    ensures |r| <= |results|
    ensures multiset(r) == multiset(Compact(results))
  {
    PickPermutation(results, order);
    var arrived := Pick(results, order);
    CompactRearranged(arrived, results);
    Compact(arrived)
  }

  /** Everything gathered from the tasks that finished before the k-th
      completion comes before everything gathered from the rest. */
  lemma GatherSplitsAtCompletion<T(!new)>(results: seq<Option<T>>, order: seq<nat>, k: nat)
    requires IsPermutation(order, |results|) && k <= |order|
    ensures InBounds(order[..k], |results|) && InBounds(order[k..], |results|)
    ensures Gather(results, order) == Compact(Pick(results, order[..k])) + Compact(Pick(results, order[k..]))
  {
    assert order == order[..k] + order[k..];
    PickAppend(results, order[..k], order[k..]);
    CompactAppend(Pick(results, order[..k]), Pick(results, order[k..]));
  }

  /** Two tasks finishing second-added first is a completion order. */
  lemma SwapIsPermutation()
    ensures IsPermutation([1, 0], 2)
  {
    assert Indices(2) == [0, 1];
    assert multiset([1, 0]) == multiset([0, 1]);
  }

  lemma PickSwapped<T>(results: seq<T>)
    requires |results| == 2
    ensures InBounds([1, 0], |results|)
    ensures Pick(results, [1, 0]) == [results[1], results[0]]
  {
  }

  lemma CompactPair<T(!new)>(a: Option<T>, b: Option<T>)
    requires a.Some? && b.Some?
    ensures Compact([a, b]) == [a.value, b.value]
  {
    assert [a, b] == [a] + [b];
    CompactAppend([a], [b]);
    CompactSingle(a);
    CompactSingle(b);
  }

  /** Two present results that finish in reverse order are gathered in
      reverse order. */
  lemma GatherPairReversed<T(!new)>(results: seq<Option<T>>)
    requires |results| == 2 && results[0].Some? && results[1].Some?
    ensures IsPermutation([1, 0], |results|)
    ensures Gather(results, [1, 0]) == [results[1].value, results[0].value]
  {
    SwapIsPermutation();
    PickSwapped(results);
    CompactPair(results[1], results[0]);
  }

  /** The completion order changes at most the order of what is gathered. */
  lemma GatherOrderIndependent<T(!new)>(results: seq<Option<T>>, o1: seq<nat>, o2: seq<nat>)
    requires IsPermutation(o1, |results|) && IsPermutation(o2, |results|)
    ensures multiset(Gather(results, o1)) == multiset(Gather(results, o2))
  {
  }

  lemma MultisetUpdateCount<U>(xs: seq<U>, i: nat, v: U, y: U)
    requires i < |xs|
    ensures multiset(xs[i := v])[y] + (if xs[i] == y then 1 else 0) == multiset(xs)[y] + (if v == y then 1 else 0)
  {
    assert xs == xs[..i] + [xs[i]] + xs[i + 1..];
    assert xs[i := v] == xs[..i] + [v] + xs[i + 1..];
  }

  /** Making one task produce nothing removes exactly its value (if it had
      one) and nothing else. */
  lemma CompactDropOne<T(!new)>(xs: seq<Option<T>>, i: nat)
    requires i < |xs|
    ensures multiset(Compact(xs[i := None])) + (if xs[i].Some? then multiset{xs[i].value} else multiset{})
            == multiset(Compact(xs))
  {
    var ys := xs[i := None];
    var extra: multiset<T> := if xs[i].Some? then multiset{xs[i].value} else multiset{};
    forall x: T
      ensures (multiset(Compact(ys)) + extra)[x] == multiset(Compact(xs))[x]
    {
      MultisetUpdateCount(xs, i, None, Some(x));
      CompactCount(ys, x);
      CompactCount(xs, x);
    }
  }

  lemma CompactSnoc<T(!new)>(xs: seq<Option<T>>, x: Option<T>)
    ensures Compact(xs + [x]) == Compact(xs) + (if x.Some? then [x.value] else [])
  {
    assert (xs + [x])[..|xs|] == xs;
  }

  /** The loop that drains the task group: appends every non-nil result
      in the order the results arrive. */
  method CollectArrivals<T(!new)>(arrivals: seq<Option<T>>) returns (results: seq<T>)
    ensures results == Compact(arrivals)
  {
    results := [];
    var k := 0;
    while k < |arrivals|
      invariant 0 <= k <= |arrivals|
      invariant results == Compact(arrivals[..k])
    {
      assert arrivals[..k + 1] == arrivals[..k] + [arrivals[k]];
      CompactSnoc(arrivals[..k], arrivals[k]);
      if arrivals[k].Some? {
        results := results + [arrivals[k].value];
      }
      k := k + 1;
    }
    assert arrivals[..k] == arrivals;
  }
}

=== FILE: trending_pass.dfy ===
/** One load of the trending screen (`reloadData`): fetch the content
    directory, order its categories, build and send one query per
    category, turn each outcome into an optional section, and gather the
    sections in the order the searches finish.

    The network is not modelled: the directory fetch is given as a
    `Result`, `responses[i]` is what the search for the i-th query sent
    returned, and `order` lists the query positions in the order their
    tasks finished. */
module TrendingPass {
  import opened Wrappers
  import opened Lbry
  import opened Directory
  import opened CategoryOrder
  import opened TrendingQuery
  import opened TaskGroup

  datatype ViewSection = ViewSection(id: string, title: string, items: seq<Claim>)

  datatype ViewState = Loading | Error(message: string) | Content(sections: seq<ViewSection>)

  /** What one pass writes to the screen state, and the queries it sent. */
  datatype Pass = Pass(state: ViewState, requests: seq<ClaimSearchRequest>)

  /** The body of one category's task: a failed search or an empty result
      gives no section; otherwise the section carries the category's key and
      label and the items exactly as returned. */
  function SectionOf(category: Category, response: Result<seq<Claim>>): (r: Option<ViewSection>)
    ensures r.Some? <==> response.Success? && |response.value| > 0
    ensures r.Some? ==> r.value == ViewSection(category.key, category.config.title, response.value)
  {
    match response
    case Failure(_) => None
    case Success(items) => if |items| == 0 then None else Some(ViewSection(category.key, category.config.title, items))
  }

  /** The task results in the order the tasks were added. */
  function TaskResults(sorted: seq<Category>, responses: seq<Result<seq<Claim>>>): (r: seq<Option<ViewSection>>)
    requires |responses| == |sorted|
    ensures |r| == |sorted|
    ensures forall i :: 0 <= i < |sorted| ==> r[i] == SectionOf(sorted[i], responses[i])
  {
    seq(|sorted|, i requires 0 <= i < |sorted| => SectionOf(sorted[i], responses[i]))
  }

  /** The queries in the order they are built, one per category. */
  function Requests(sorted: seq<Category>, now: int): (r: seq<ClaimSearchRequest>)
    ensures |r| == |sorted|
    ensures forall i :: 0 <= i < |sorted| ==> r[i] == BuildRequest(sorted[i], now)
  {
    seq(|sorted|, i requires 0 <= i < |sorted| => BuildRequest(sorted[i], now))
  }

  /** The inputs of a pass fit together: when the directory arrived there is
      one response per category and `order` is a completion order of them. */
  predicate WellFormedRun(fetched: Result<seq<Category>>, responses: seq<Result<seq<Claim>>>, order: seq<nat>)
  {
    fetched.Success? ==> |responses| == |fetched.value| && IsPermutation(order, |fetched.value|)
  }

  /** `reloadData` */
  function Reload(fetched: Result<seq<Category>>, now: int, responses: seq<Result<seq<Claim>>>, order: seq<nat>): (p: Pass)
    requires WellFormedRun(fetched, responses, order)
    ensures !p.state.Loading?
    ensures p.state.Error? <==> fetched.Failure?
    ensures fetched.Failure? ==> p.state.message == fetched.error && p.requests == []
    ensures fetched.Success? ==> |p.requests| == |fetched.value| && |p.state.sections| <= |fetched.value|
    ensures fetched.Success? ==> forall i :: 0 <= i < |p.requests| ==>
              p.requests[i] == BuildRequest(SortCategories(fetched.value)[i], now)
  {
    match fetched
    case Failure(description) => Pass(Error(description), [])
    case Success(categories) =>
      var sorted := SortCategories(categories);
      Pass(Content(Gather(TaskResults(sorted, responses), order)), Requests(sorted, now))
  }

  /** Querying a rearrangement of the categories queries each of them. */
  lemma RequestsOfRearranged(categories: seq<Category>, sorted: seq<Category>, now: int)
    requires multiset(sorted) == multiset(categories)
    ensures forall c :: c in categories ==> BuildRequest(c, now) in Requests(sorted, now)
    ensures forall q :: q in Requests(sorted, now) ==> exists c :: c in categories && q == BuildRequest(c, now)
  {
    var requests := Requests(sorted, now);
    forall c | c in categories ensures BuildRequest(c, now) in requests {
      assert c in multiset(sorted);
      var i :| 0 <= i < |sorted| && sorted[i] == c;
      assert requests[i] == BuildRequest(c, now);
    }
    forall q | q in requests ensures exists c :: c in categories && q == BuildRequest(c, now) {
      var i :| 0 <= i < |requests| && requests[i] == q;
      var c := sorted[i];
      assert c in multiset(categories);
      assert c in categories && q == BuildRequest(c, now);
    }
  }

  /** Every category of the directory is queried, and every query sent is
      the query of one of its categories. */
  lemma OneRequestPerCategory(fetched: Result<seq<Category>>, now: int, responses: seq<Result<seq<Claim>>>, order: seq<nat>)
    requires WellFormedRun(fetched, responses, order) && fetched.Success?
    ensures forall c :: c in fetched.value ==> BuildRequest(c, now) in Reload(fetched, now, responses, order).requests
    ensures forall q :: q in Reload(fetched, now, responses, order).requests ==>
              exists c :: c in fetched.value && q == BuildRequest(c, now)
  {
    var sorted := SortCategories(fetched.value);
    assert Reload(fetched, now, responses, order).requests == Requests(sorted, now);
    RequestsOfRearranged(fetched.value, sorted, now);
  }

  /** The section a category's task yields is the one its response calls for. */
  lemma TaskResultsMembership(sorted: seq<Category>, responses: seq<Result<seq<Claim>>>, s: ViewSection)
    requires |responses| == |sorted|
    ensures Some(s) in TaskResults(sorted, responses)
            <==> exists i :: 0 <= i < |sorted| && responses[i] == Success(s.items) && |s.items| > 0
                   && s.id == sorted[i].key && s.title == sorted[i].config.title
  {
    var tasks := TaskResults(sorted, responses);
    if Some(s) in tasks {
      var i :| 0 <= i < |tasks| && tasks[i] == Some(s);
      assert SectionOf(sorted[i], responses[i]) == Some(s);
    }
    if exists i :: 0 <= i < |sorted| && responses[i] == Success(s.items) && |s.items| > 0
                   && s.id == sorted[i].key && s.title == sorted[i].config.title {
      var i :| 0 <= i < |sorted| && responses[i] == Success(s.items) && |s.items| > 0
                 && s.id == sorted[i].key && s.title == sorted[i].config.title;
      var section := SectionOf(sorted[i], responses[i]);
      assert section == Some(ViewSection(s.id, s.title, s.items));
      assert tasks[i] == section;
    }
  }

  /** A section is shown exactly when the search of some category succeeded
      with at least one item; it then carries that category's key and label
      and the items as returned. */
  lemma SectionsAreNonEmptyResults(fetched: Result<seq<Category>>, now: int, responses: seq<Result<seq<Claim>>>, order: seq<nat>, s: ViewSection)
    requires WellFormedRun(fetched, responses, order) && fetched.Success?
    ensures var sorted := SortCategories(fetched.value);
            s in Reload(fetched, now, responses, order).state.sections
            <==> exists i :: 0 <= i < |sorted| && responses[i] == Success(s.items) && |s.items| > 0
                   && s.id == sorted[i].key && s.title == sorted[i].config.title
  {
    var sorted := SortCategories(fetched.value);
    var tasks := TaskResults(sorted, responses);
    var sections := Reload(fetched, now, responses, order).state.sections;
    assert s in sections <==> s in multiset(Compact(tasks));
    CompactMembership(tasks, s);
    TaskResultsMembership(sorted, responses, s);
  }

  /** Every section comes from a category of the directory and is never
      empty. */
  lemma SectionsBelongToCategories(fetched: Result<seq<Category>>, now: int, responses: seq<Result<seq<Claim>>>, order: seq<nat>)
    requires WellFormedRun(fetched, responses, order) && fetched.Success?
    ensures forall s :: s in Reload(fetched, now, responses, order).state.sections ==>
              |s.items| > 0 && exists c :: c in fetched.value && c.key == s.id && c.config.title == s.title
  {
    var sorted := SortCategories(fetched.value);
    forall s | s in Reload(fetched, now, responses, order).state.sections
      ensures |s.items| > 0 && exists c :: c in fetched.value && c.key == s.id && c.config.title == s.title
    {
      SectionsAreNonEmptyResults(fetched, now, responses, order, s);
      var i :| 0 <= i < |sorted| && responses[i] == Success(s.items) && |s.items| > 0
                 && s.id == sorted[i].key && s.title == sorted[i].config.title;
      assert sorted[i] in multiset(fetched.value);
    }
  }

  /** The completion order decides only the order of the sections: the same
      queries are sent and the same sections shown. */
  lemma CompletionOrderOnlyReorders(fetched: Result<seq<Category>>, now: int, responses: seq<Result<seq<Claim>>>, o1: seq<nat>, o2: seq<nat>)
    requires WellFormedRun(fetched, responses, o1) && WellFormedRun(fetched, responses, o2)
    ensures Reload(fetched, now, responses, o1).requests == Reload(fetched, now, responses, o2).requests
    ensures Reload(fetched, now, responses, o1).state.Content? ==>
              multiset(Reload(fetched, now, responses, o1).state.sections)
              == multiset(Reload(fetched, now, responses, o2).state.sections)
  {
  }

  /** A search that fails or finds nothing makes its task yield nothing. */
  lemma TaskResultsUpdate(sorted: seq<Category>, responses: seq<Result<seq<Claim>>>, i: nat, replacement: Result<seq<Claim>>)
    requires |responses| == |sorted| && i < |responses|
    requires replacement.Failure? || replacement == Success([])
    ensures TaskResults(sorted, responses[i := replacement]) == TaskResults(sorted, responses)[i := None]
  {
  }

  /** Turning one category's search into a failure, or into an empty
      result, removes that category's section (if it had one) and leaves
      every other section shown; the screen still shows content. */
  lemma FailedSearchDropsOnlyItsSection(fetched: Result<seq<Category>>, now: int, responses: seq<Result<seq<Claim>>>, order: seq<nat>,
                                        i: nat, replacement: Result<seq<Claim>>)
    requires WellFormedRun(fetched, responses, order) && fetched.Success?
    requires i < |responses|
    requires replacement.Failure? || replacement == Success([])
    ensures var before := Reload(fetched, now, responses, order);
            var after := Reload(fetched, now, responses[i := replacement], order);
            var lost := SectionOf(SortCategories(fetched.value)[i], responses[i]);
            && after.state.Content?
            && multiset(after.state.sections) + (if lost.Some? then multiset{lost.value} else multiset{})
               == multiset(before.state.sections)
  {
    var sorted := SortCategories(fetched.value);
    var tasks := TaskResults(sorted, responses);
    TaskResultsUpdate(sorted, responses, i, replacement);
    assert Reload(fetched, now, responses, order).state.sections == Gather(tasks, order);
    assert Reload(fetched, now, responses[i := replacement], order).state.sections == Gather(tasks[i := None], order);
    CompactDropOne(tasks, i);
  }

  /** When no search yields items the screen shows an empty list, not an
      error. */
  lemma AllSearchesFailing(fetched: Result<seq<Category>>, now: int, responses: seq<Result<seq<Claim>>>, order: seq<nat>)
    requires WellFormedRun(fetched, responses, order) && fetched.Success?
    requires forall i :: 0 <= i < |responses| ==> responses[i].Failure? || responses[i] == Success([])
    ensures Reload(fetched, now, responses, order).state == Content([])
  {
    var sorted := SortCategories(fetched.value);
    var tasks := TaskResults(sorted, responses);
    var sections := Reload(fetched, now, responses, order).state.sections;
    forall x: ViewSection ensures multiset(Compact(tasks))[x] == 0 {
      CompactCount(tasks, x);
      assert Some(x) !in tasks;
    }
    assert multiset(sections) == multiset{};
  }

  /** Sections appear in completion order, not in `sortOrder` order: with
      two categories ranked 1 and 2 whose searches finish second-ranked
      first, the second-ranked section is shown first. */
  lemma SectionsFollowCompletionOrder()
    ensures var a := Category("a", CategoryConfig("A", Some(1), None));
            var b := Category("b", CategoryConfig("B", Some(2), None));
            var item := Claim("x", None, None, None, None);
            var p := Reload(Success([a, b]), 0, [Success([item]), Success([item])], [1, 0]);
            p.state.sections == [ViewSection("b", "B", [item]), ViewSection("a", "A", [item])]
  {
    var a := Category("a", CategoryConfig("A", Some(1), None));
    var b := Category("b", CategoryConfig("B", Some(2), None));
    var item := Claim("x", None, None, None, None);
    var responses := [Success([item]), Success([item])];
    SortPair(a, b);
    var tasks := TaskResults([a, b], responses);
    assert tasks == [Some(ViewSection("a", "A", [item])), Some(ViewSection("b", "B", [item]))];
    GatherPairReversed(tasks);
  }
}

=== FILE: trending_query.dfy ===
/** The `claim_search` query the trending screen sends for one category. */
module TrendingQuery {
  import opened Wrappers
  import opened Lbry
  import opened Directory
  import Decimal

  const SecondsPerDay: int := 60 * 60 * 24

  /** How far back the trending window reaches: 180 days. */
  const WindowDays: int := 180

  const WindowSeconds: int := SecondsPerDay * WindowDays

  const TrendingClaimTypes: seq<ClaimType> := [Stream, Repost]
  const TrendingStreamTypes: seq<StreamType> := [Audio, Video]
  const FirstPage: int := 1
  const PageSize: int := 20
  const ClaimsPerChannel: int := 1
  const TrendingOrder: seq<string> := ["release_time"]

  /** `">"` and the start of the window in full, as `%lld` would write it:
      only claims released after the start of the window. */
  function ReleaseTimeFilter(now: int): (f: string)
    ensures |f| > 0 && f[0] == '>'
    ensures CutoffOf(f) == Some(now - WindowSeconds)
  {
    var f := ">" + Decimal.Format(now - WindowSeconds);
    assert f[1..] == Decimal.Format(now - WindowSeconds);
    Decimal.FormatRoundTrip(now - WindowSeconds);
    f
  }

  /** The instant a release-time filter of the form `>N` admits claims
      after; `None` for any other string. */
  function CutoffOf(filter: string): (cutoff: Option<int>)
  {
    if |filter| > 0 && filter[0] == '>' then Decimal.Parse(filter[1..]) else None
  }

  /** The filter as the source writes it, `String(format: ">%d", time)` with
      an `Int64` time: `%d` keeps only the low 32 bits. */
  function ReleaseTimeFilterAsWritten(now: int): (f: string)
    ensures CutoffOf(f) == Some(Decimal.Int32Wrap(now - WindowSeconds))
  {
    var f := ">" + Decimal.FormatInt32(now - WindowSeconds);
    assert f[1..] == Decimal.FormatInt32(now - WindowSeconds);
    f
  }

  /** While the start of the window fits in 32 bits the two filters agree. */
  lemma AsWrittenAgreesBefore2038(now: int)
    requires -0x8000_0000 <= now - WindowSeconds < 0x8000_0000
    ensures ReleaseTimeFilterAsWritten(now) == ReleaseTimeFilter(now)
  {
  }

  /** Once the start of the window reaches 2^31 seconds (January 2038) the
      filter as written admits claims from before the window; at
      `now == 2^32 + 180 days` (the year 2106) it admits everything released
      after 1970. */
  lemma AsWrittenFilterWraps(now: int)
    requires now - WindowSeconds >= 0x8000_0000
    ensures CutoffOf(ReleaseTimeFilterAsWritten(now)).value < CutoffOf(ReleaseTimeFilter(now)).value
    ensures now == Decimal.Int32Modulus + WindowSeconds ==> CutoffOf(ReleaseTimeFilterAsWritten(now)) == Some(0)
  {
  }

  /** The query built for `category` at clock reading `now` (whole seconds
      since the Unix epoch). */
  function BuildRequest(category: Category, now: int): (r: ClaimSearchRequest)
    ensures r.claimType == [Stream, Repost]
    ensures r.streamTypes == [Audio, Video]
    ensures r.page == 1 && r.pageSize == 20
    ensures r.limitClaimsPerChannel == 1
    ensures r.orderBy == ["release_time"]
    ensures r.notTags.None? && r.notChannelIds.None?
    ensures r.channelIds == category.config.channelIds
    ensures r.releaseTime == [">" + Decimal.Format(now - 15552000)]
    ensures CutoffOf(r.releaseTime[0]) == Some(now - 15552000)
  {
    var filter := ReleaseTimeFilter(now);
    ClaimSearchRequest(
      claimType := TrendingClaimTypes,
      streamTypes := TrendingStreamTypes,
      page := FirstPage,
      pageSize := PageSize,
      releaseTime := [filter],
      limitClaimsPerChannel := ClaimsPerChannel,
      notTags := None,
      channelIds := category.config.channelIds,
      notChannelIds := None,
      orderBy := TrendingOrder)
  }

  /** A clock one day later moves the cutoff exactly one day later. */
  lemma CutoffFollowsClock(category: Category, now: int)
    ensures CutoffOf(BuildRequest(category, now + SecondsPerDay).releaseTime[0]).value
            == CutoffOf(BuildRequest(category, now).releaseTime[0]).value + 86400
  {
  }

  /** Two queries are identical exactly when they were built at the same
      instant for categories with the same channel restriction: the label,
      key and sort order play no part in the query. */
  lemma RequestDeterminedByChannelsAndClock(c1: Category, c2: Category, now1: int, now2: int)
    ensures BuildRequest(c1, now1) == BuildRequest(c2, now2)
            <==> c1.config.channelIds == c2.config.channelIds && now1 == now2
  {
  }
}

=== FILE: trending_view.dfy ===
/** The trending screen's state machine: which loads the screen offers in
    each state and what each load writes to the displayed state. */
module TrendingView {
  import opened Wrappers
  import opened Lbry
  import opened Directory
  import opened TrendingPass

  /** The screen starts out loading. */
  const InitialState: ViewState := Loading

  /** What starts a load: the screen appearing, pull-to-refresh on the
      content list, or the Retry button of the error view. */
  datatype Trigger = Appear | Refresh | Retry

  /** `onAppear` is attached to the whole screen; `refreshable` only to the
      content list; the Retry button exists only in the error view. */
  predicate Offered(s: ViewState, t: Trigger)
  {
    match t
    case Appear => true
    case Refresh => s.Content?
    case Retry => s.Error?
  }

  /** A finished pass: `reloadData` only ever writes content or an error. */
  predicate Settled(p: Pass)
  {
    !p.state.Loading?
  }

  /** The values written to the screen state, in order, by a load started
      by `t` whose pass ends in `p`: `resetData` first writes `.loading`,
      `reloadData` writes only the pass's verdict. */
  function Writes(t: Trigger, p: Pass): (w: seq<ViewState>)
    ensures |w| == if t == Retry then 2 else 1
    ensures w[|w| - 1] == p.state
    ensures Settled(p) ==> (Loading in w <==> t == Retry)
    ensures t == Retry ==> w[0] == Loading
  {
    if t == Retry then [Loading, p.state] else [p.state]
  }

  /** One load: the trigger that started it and the pass it ran. */
  datatype Event = Event(trigger: Trigger, pass: Pass)

  /** The states shown after `s` as the events happen in turn. */
  function Shown(s: ViewState, events: seq<Event>): (shown: seq<ViewState>)
    decreases |events|
  {
    if |events| == 0 then []
    else
      var w := Writes(events[0].trigger, events[0].pass);
      w + Shown(w[|w| - 1], events[1..])
  }

  /** Every trigger is one the screen offered at the time, and every pass
      settled. */
  predicate ValidRun(s: ViewState, events: seq<Event>)
    decreases |events|
  {
    |events| == 0 ||
    (Offered(s, events[0].trigger) && Settled(events[0].pass) && ValidRun(events[0].pass.state, events[1..]))
  }

  /** Past its first state, `trace` shows `Loading` only directly after an
      error and directly before a settled state. */
  predicate LoadingOnlyAfterError(trace: seq<ViewState>)
  {
    forall k :: 1 <= k < |trace| && trace[k].Loading? ==>
      trace[k - 1].Error? && k + 1 < |trace| && !trace[k + 1].Loading?
  }

  /** After the first state, the spinner comes back only through Retry: each
      later `Loading` directly follows an error and is directly followed by
      the retried pass's verdict. */
  lemma {:induction false} LoadingOnlyOnRetry(s: ViewState, events: seq<Event>)
    requires ValidRun(s, events)
    decreases |events|
    ensures LoadingOnlyAfterError([s] + Shown(s, events))
  {
    if |events| > 0 {
      var e := events[0];
      var w := Writes(e.trigger, e.pass);
      var last := e.pass.state;
      var rest := [last] + Shown(last, events[1..]);
      var trace := [s] + Shown(s, events);
      LoadingOnlyOnRetry(last, events[1..]);
      assert LoadingOnlyAfterError(rest);
      assert trace == [s] + w[..|w| - 1] + rest;
      forall k | 1 <= k < |trace| && trace[k].Loading?
        ensures trace[k - 1].Error? && k + 1 < |trace| && !trace[k + 1].Loading?
      {
        if k < |w| {
          assert e.trigger == Retry && k == 1;
          assert trace[0] == s;
          assert trace[2] == rest[0] == last;
        } else {
          var k' := k - |w|;
          assert trace[k] == rest[k'];
          assert k' > 0;
          assert trace[k - 1] == rest[k' - 1];
          assert k' + 1 < |rest|;
          assert trace[k + 1] == rest[k' + 1];
        }
      }
    }
  }

  /** The first load can only be started by the screen appearing: while
      loading there is neither a Retry button nor a refreshable list. */
  lemma FirstLoadOnAppear(t: Trigger)
    ensures Offered(InitialState, t) <==> t == Appear
  {
  }

  /** Seen from the screen: whatever the load, the final state is an error
      exactly when the content directory could not be fetched. */
  lemma ErrorOnlyWhenDirectoryFails(t: Trigger, fetched: Result<seq<Category>>, now: int,
                                    responses: seq<Result<seq<Claim>>>, order: seq<nat>)
    requires WellFormedRun(fetched, responses, order)
    ensures var w := Writes(t, Reload(fetched, now, responses, order));
            w[|w| - 1].Error? <==> fetched.Failure?
  {
  }
}

=== FILE: video_row.dfy ===
/** The row model of a video in a list: `VideoRowView.Item`, its
    `ChannelInfo`, and how both are derived from a claim. */
module VideoRow {
  import opened Wrappers
  import opened Lbry

  const UnnamedTitle: string := "Unnamed Video"

  /** The channel line of a row: the channel's name and avatar. */
  datatype ChannelInfo = ChannelInfo(name: string, thumbnail: Option<Url>)

  /** What a row shows. `timestamp` is in whole seconds since the Unix epoch. */
  datatype Item = Item(
    title: string,
    thumbnail: Option<Url>,
    descriptionText: Option<string>,
    timestamp: Option<int>,
    channel: Option<ChannelInfo>)

  /** The row view holds nothing but its item. */
  datatype VideoRowView = VideoRowView(item: Item)

  /** The first present candidate, or `default` when none is present. */
  function FirstPresent<T>(candidates: seq<Option<T>>, default: T): (first: T)
  {
    if |candidates| == 0 then default
    else if candidates[0].Some? then candidates[0].value
    else FirstPresent(candidates[1..], default)
  }

  /** `ChannelInfo(signingChannel:)` */
  function ChannelInfoOf(signingChannel: Claim): (info: ChannelInfo)
    ensures signingChannel.name.Some? ==> info.name == signingChannel.name.value
    ensures signingChannel.name.None? ==> info.name == ""
    ensures signingChannel.value.Some? && signingChannel.value.value.thumbnail.Some? ==>
              info.thumbnail == signingChannel.value.value.thumbnail.value.url
    ensures signingChannel.value.None? || signingChannel.value.value.thumbnail.None? ==> info.thumbnail.None?
  {
    ChannelInfo(signingChannel.name.GetOr(""), ThumbnailUrl(signingChannel))
  }

  /** `Item(claim:)` */
  function ItemOf(claim: Claim): (item: Item)
    ensures claim.value.Some? && claim.value.value.title.Some? ==> item.title == claim.value.value.title.value
    ensures ValueTitle(claim).None? && claim.name.Some? ==> item.title == claim.name.value
    ensures ValueTitle(claim).None? && claim.name.None? ==> item.title == "Unnamed Video"
    ensures claim.value.Some? && claim.value.value.thumbnail.Some? ==> item.thumbnail == claim.value.value.thumbnail.value.url
    ensures claim.value.None? || claim.value.value.thumbnail.None? ==> item.thumbnail.None?
    ensures claim.value.Some? ==> item.descriptionText == claim.value.value.description
    ensures claim.value.None? ==> item.descriptionText.None?
    ensures item.timestamp == claim.timestamp
    ensures item.channel.Some? <==> claim.signingChannel.Some?
    ensures claim.signingChannel.Some? ==> item.channel == Some(ChannelInfoOf(claim.signingChannel.value))
  {
    Item(
      title := ValueTitle(claim).GetOr(claim.name.GetOr(UnnamedTitle)),
      thumbnail := ThumbnailUrl(claim),
      descriptionText := ValueDescription(claim),
      timestamp := claim.timestamp,
      channel := if claim.signingChannel.Some? then Some(ChannelInfoOf(claim.signingChannel.value)) else None)
  }

  /** `VideoRowView(claim:)`: the row shows the item derived from the
      claim. Its title is the first present of the metadata title and the
      name, its thumbnail and description are the metadata's, its date is
      the claim's, it has a channel line exactly when the
      claim is signed, and that line's avatar is the thumbnail the channel's
      own claim shows as a row. */
  function RowOf(claim: Claim): (row: VideoRowView)
    ensures row.item.title == FirstPresent([ValueTitle(claim), claim.name], UnnamedTitle)
    ensures row.item.thumbnail == ThumbnailUrl(claim)
    ensures row.item.descriptionText == ValueDescription(claim)
    ensures row.item.timestamp == claim.timestamp
    ensures row.item.channel.Some? <==> claim.signingChannel.Some?
    ensures claim.signingChannel.Some? ==> row.item.channel.value.name == claim.signingChannel.value.name.GetOr("")
    ensures claim.signingChannel.Some? ==>
              row.item.channel.value.thumbnail == RowOf(claim.signingChannel.value).item.thumbnail
  {
    TitleFallbackChain(claim);
    VideoRowView(ItemOf(claim))
  }

  /** The title is the first present of the claim's metadata title and its
      name, with a fixed fallback; it is always one of those three. */
  lemma TitleFallbackChain(claim: Claim)
    ensures ItemOf(claim).title == FirstPresent([ValueTitle(claim), claim.name], UnnamedTitle)
    ensures ItemOf(claim).title in {UnnamedTitle} + (if ValueTitle(claim).Some? then {ValueTitle(claim).value} else {})
                                      + (if claim.name.Some? then {claim.name.value} else {})
  {
    assert [ValueTitle(claim), claim.name][1..] == [claim.name];
    assert [claim.name][1..] == [];
    assert FirstPresent([claim.name], UnnamedTitle) == claim.name.GetOr(UnnamedTitle);
  }

  /** A row's channel avatar is the thumbnail the channel's own claim would
      show as a row, and its channel name falls back to the empty string. */
  lemma ChannelMirrorsSigningClaim(claim: Claim)
    requires claim.signingChannel.Some?
    ensures ItemOf(claim).channel.value.thumbnail == ItemOf(claim.signingChannel.value).thumbnail
    ensures ItemOf(claim).channel.value.name == FirstPresent([claim.signingChannel.value.name], "")
  {
  }
}

=== FILE: wrappers.dfy ===
/** Optional values and fallible results, the two shapes the Swift code
    expresses with `T?` and `throws`. */
module Wrappers {

  /** A Swift optional: `nil` is `None`. */
  datatype Option<+T> = None | Some(value: T) {

    /** The `??` operator: the wrapped value, or `default` when absent. */
    function GetOr(default: T): (r: T)
      ensures Some? ==> r == value
      ensures None? ==> r == default
    {
      match this
      case Some(v) => v
      case None => default
    }
  }

  /** The outcome of a throwing call: a value, or the error's
      `localizedDescription`. */
  datatype Result<+R> = Success(value: R) | Failure(error: string)
}
